=== FILE: README.md ===
# vectopulse scoring engine in Dafny

vectopulse compares two texts by their "structural DNA" and reports a
similarity index. This project models the engine behind that index, which is
the pure part of `vectopulse.py`:

- **Profiling.** `analyze_text` turns a text into a profile with three parts:
  - the Shannon entropy of its non-whitespace characters, divided by 8 or 12 and capped at 1;
  - the share of punctuation symbols among those characters;
  - the table of its lower-cased character trigrams.
- **Trigram similarity.** `calculate_cosine_sim` gives the cosine similarity of two trigram tables.
- **Aggregation.**
  - Two closeness scores, `1 - |a - b|`, one for the entropies and one for the punctuation ratios.
  - The weighted sum 0.5 / 0.3 / 0.2 of the three sub-scores.
  - A flat 0.10 penalty when either raw text is shorter than 150 characters.
  - A clamp of the result to [0, 1].
- **Shared trigrams.** The list is `(counts_a & counts_b).most_common(15)`.

The model has four modules:

- `Host` (`host.dfy`). This is what the engine borrows from the runtime: Unicode normalisation and character classes, `math.log2` and `math.sqrt`. Each is a parameter, together with the laws the proofs use:
  - lower-casing keeps whitespace whitespace;
  - `log2` is never positive on a probability;
  - `sqrt` is the non-negative square root.
- `Counters` (`counters.dfy`). Python's `collections.Counter`: a map to positive counts plus the key insertion order. It covers:
  - `Counter(xs)`, as `Tally`;
  - `a & b`, as `Intersect`;
  - `most_common(n)`, as a stable sort by decreasing count followed by a prefix. Python's `heapq.nlargest` is documented to return the same result as `sorted(..., reverse=True)[:n]`.
- `Profiler` (`profiler.dfy`). `analyze_text`, as `Analyze`.
- `Aggregator` (`aggregator.dfy`):
  - the cosine similarity, as `Cosine`;
  - the sub-scores, weighting, penalty and clamp;
  - `Compare`, which profiles two texts and scores them;
  - the shared-trigram list.

Sums over dictionaries (the dot product, the sums of squares and the entropy)
are sums over key sets. Exact real arithmetic does not depend on summation
order.

Five consequences of the code are easy to misread:

- **Empty text.** The page never scores an empty text, because of the guard at `vectopulse.py:148`. A non-empty all-whitespace text does get scored. It has the profile (0, 0, empty table), and its score against a text with entropy `e` and punctuation ratio `r` is `clamp(0.4 - 0.3e - 0.2r)`, or `clamp(0.5 - 0.3e - 0.2r)` when neither text is short. That score is positive whenever `e + r < 1` (`CompareWithBlank`).
- **ASCII divisor.** The raw entropy of text with an ASCII character is divided by 8, and that of other text by 12. For the same raw entropy strictly between 0 and 12, divisor 8 gives the higher normalised entropy (`AsciiScalesHigher`).
- **Trigram case.** Trigrams are always cut from the lower-cased text at line 97, so every key is lower-case.
- **Trigram total.** For a prepared text `t` (normalised, then cut to `MAX_CHARS`) with a non-whitespace character, the counts sum to `max(len(t) - 2, 0)`. A prepared text that is all whitespace has an empty table, whatever its length. This includes a raw text whose only non-whitespace characters lie beyond `MAX_CHARS` (`TrigramTable`, `DegenerateExactly`).
- **Trigram ties.** Shared trigrams of equal count are listed in the order in which they first occur among the first text's lower-cased trigrams. Ties at the cut of 15 are broken the same way: a trigram left out first occurs after every listed trigram of the same count (`CompareSharedTiesFirstSeen`).

## Model

| member | source | states |
|---|---|---|
| Counters.Get | vectopulse.py:102 | `c.get(k, 0)`; stated through `Aggregator.DotProductShared`, which sums it over the keys |
| Counters.Tally | vectopulse.py:88 | `Counter(xs)` is a well-formed counter whose keys are exactly the elements of `xs`, each counted as often as it occurs |
| Counters.TallyTotal | vectopulse.py:98 | the counts of `Counter(xs)` add up to `len(xs)` |
| Counters.Intersect | vectopulse.py:171 | `a & b` keeps exactly the keys present in both counters, each with count `min(a[k], b[k])`, and is well-formed |
| Counters.IntersectCommutes | vectopulse.py:171 | `a & b` and `b & a` have the same counts |
| Counters.SortByCount | vectopulse.py:171 | the ranking is a permutation (same multiset) of the keys and is in non-increasing order of count |
| Counters.SortKeepsDistinct | vectopulse.py:171 | ranking keys that are listed once lists each of them once |
| Counters.SortKeepsTies | vectopulse.py:171 | the ranking is stable: keys of equal count keep the order of the input |
| Counters.MostCommon | vectopulse.py:171 | `most_common(n)`; its properties are stated by `Counters.MostCommonRanks` and `Counters.MostCommonKeepsTies` |
| Counters.MostCommonRanks | vectopulse.py:171 | `most_common(n)` returns `min(n, len(c))` distinct keys of `c` in non-increasing order of count; it returns all keys when there are at most `n`, and no key left out counts more than a key returned |
| Counters.MostCommonKeepsTies | vectopulse.py:171 | keys of equal count in `most_common(n)` keep the counter's insertion order |
| Counters.MostCommonCutTies | vectopulse.py:171 | a key that `most_common(n)` leaves out comes after every listed key of the same count in the counter's insertion order |
| Counters.IntersectOverKeepsOrder | vectopulse.py:171 | `a & b` lists its keys in the order they have in `a` |
| Counters.MostCommonShared | vectopulse.py:171 | `(a & b).most_common(n)` holds exactly `min(n, k)` distinct keys, for `k` shared keys, each in both counters with count `min(a[k], b[k]) > 0`, in non-increasing order of that count; it holds every shared key when there are at most `n`, and no shared key left out counts more than one listed |
| Counters.MostCommonSharedTies | vectopulse.py:171 | shared keys of equal count appear in the order of the first counter |
| Counters.MostCommonSharedCutTies | vectopulse.py:171 | a shared key that `(a & b).most_common(n)` leaves out comes after every listed key of the same count in the first counter's order |
| Counters.TallyFirstSeen | vectopulse.py:88 | `Counter(xs)` lists its keys in the order of their first occurrence in `xs`: of two keys, the earlier one occurs in `xs` before the later one first does |
| Profiler.Prepared | vectopulse.py:80-81 | the prepared text is the NFKC form when that is at most `MAX_CHARS` long, and its first `MAX_CHARS` characters otherwise |
| Profiler.Truncate | vectopulse.py:81 | the result is a prefix of the text, at most `MAX_CHARS` = 50000 long, and the whole text when it is no longer than that |
| Profiler.Lower | vectopulse.py:83 | lower-casing keeps the length and maps each character on its own |
| Profiler.NonSpace | vectopulse.py:83 | `chars` holds exactly the non-whitespace characters, each as many times as it occurs in the text, and is no longer than the text |
| Profiler.Symbols | vectopulse.py:84 | the symbols are exactly the characters that are neither word nor whitespace, each as many times as it occurs in the text, and are no more than the text's characters |
| Profiler.Divisor | vectopulse.py:93 | the scaling factor; stated by `Profiler.DivisorChoice` |
| Profiler.HasAscii | vectopulse.py:93 | true exactly when some character has a code point below 128 |
| Profiler.DivisorChoice | vectopulse.py:93 | the divisor is 8.0 exactly when some non-whitespace character is ASCII, and 12.0 exactly when none is |
| Profiler.Normalize | vectopulse.py:94 | `min(h / d, 1)` is at most 1, non-negative for `h >= 0`, equal to `h / d` when that is at most 1, and equal to 1 when `h / d` is at least 1 |
| Profiler.AsciiScalesHigher | vectopulse.py:93-94 | for a raw entropy strictly between 0 and 12, divisor 8 gives a strictly higher normalised entropy than divisor 12 |
| Profiler.RawEntropy | vectopulse.py:90 | the Shannon entropy of `Counter(chars)` over the abstract `log2`; stated by `Profiler.RawEntropyNonNegative` |
| Profiler.RawEntropyNonNegative | vectopulse.py:90 | the Shannon entropy of the characters is never negative |
| Profiler.Windows | vectopulse.py:97 | there are `max(len(s) - 2, 0)` windows, and window `i` is `s[i:i+3]` |
| Profiler.SymbolsAtMostNonSpace | vectopulse.py:83-84 | there are no more symbols than non-whitespace lower-cased characters |
| Profiler.BlankIff | vectopulse.py:83-85 | the lower-cased text has no non-whitespace character exactly when the text has none |
| Profiler.ProfileOf | vectopulse.py:83-98 | the profile of a prepared text has entropy at most 1 and a well-formed trigram counter; `Profiler.ProfileOfBounds` adds that entropy and ratio lie in [0, 1] |
| Profiler.Analyze | vectopulse.py:76-98 | the profile's entropy is at most 1 and its trigram table is a well-formed counter |
| Profiler.DegenerateExactly | vectopulse.py:77-85 | empty input and input whose prepared text is all whitespace give (0, 0, empty table); any other input gives the counter of the lower-cased windows of the prepared text |
| Profiler.ProfileBounds | vectopulse.py:88-96 | the normalised entropy and the punctuation ratio both lie in [0, 1] |
| Profiler.WindowTable | vectopulse.py:97-98 | the window counts of a prefix `t` of `s` add up to `max(len(t) - 2, 0)`, and every key is three characters of `s` lying within `t` |
| Profiler.TrigramTable | vectopulse.py:80-98 | when the prepared text `t` has a non-whitespace character, the trigram counts add up to `max(len(t) - 2, 0)`; each key has length 3, is counted once per window it appears as, and occurs in the lower-cased normalised text within its first `MAX_CHARS` characters |
| Aggregator.DotProduct | vectopulse.py:101-102 | the dot product over the union of keys; stated by `Aggregator.DotProductShared` |
| Aggregator.SquareSum | vectopulse.py:103-104 | the sum of squared counts; stated by `Aggregator.TablesCauchySchwarz` and `Aggregator.CosineBounds` |
| Aggregator.Quotient | vectopulse.py:105 | `dot / (mag1 * mag2)`, or 0 when the product is 0; `Aggregator.QuotientOfRoots` bounds it in [0, 1] and `Aggregator.CosineOfEmpty` gives the zero case |
| Aggregator.Cosine | vectopulse.py:100-105 | `calculate_cosine_sim`; stated by `Aggregator.CosineBounds`, `Aggregator.CosineSymmetric`, `Aggregator.CosineOfEmpty` and `Aggregator.CosineSelf` |
| Aggregator.DotProductShared | vectopulse.py:101-102 | the dot product over the union of keys equals the sum over the shared keys only, and is non-negative |
| Aggregator.CauchySchwarz | vectopulse.py:102-104 | the squared dot product is at most the product of the two sums of squares |
| Aggregator.CosineSymmetric | vectopulse.py:100-105 | the cosine similarity does not depend on the order of the tables |
| Aggregator.CosineOfEmpty | vectopulse.py:103-105 | when either table is empty the similarity is 0, with no division by zero |
| Aggregator.CosineBounds | vectopulse.py:100-105 | the cosine similarity lies in [0, 1] |
| Aggregator.CosineSelf | vectopulse.py:100-105 | a non-empty table has similarity 1 with itself |
| Aggregator.Closeness | vectopulse.py:154-155 | `1 - abs(x - y)` is at most 1, equals 1 exactly when `x == y`, and is non-negative for `x` and `y` in [0, 1] |
| Aggregator.ClosenessSymmetric | vectopulse.py:154-155 | closeness does not depend on the order of its arguments |
| Aggregator.Weighted | vectopulse.py:157 | for sub-scores in [0, 1] the weighted sum lies in [0, 1], and equals 1 exactly when all three sub-scores are 1 |
| Aggregator.Clamp | vectopulse.py:159 | the result lies in [0, 1]; values already in it are kept, and values below or above it go to 0 or 1 |
| Aggregator.FinalScore | vectopulse.py:158-159 | the penalised, clamped score lies in [0, 1] |
| Aggregator.ScoreOf | vectopulse.py:153-159 | the similarity index of two profiles lies in [0, 1] |
| Aggregator.ScoreOfSymmetric | vectopulse.py:153-159 | the similarity index does not depend on the order of the profiles and of the text lengths |
| Aggregator.ScoreAgainstDegenerate | vectopulse.py:153-159 | a degenerate profile against a profile with entropy `e` and ratio `r` in [0, 1] scores `clamp(0.4 - 0.3e - 0.2r)`, or `clamp(0.5 - 0.3e - 0.2r)` when neither text is short, positive whenever `e + r < 1` |
| Aggregator.PenaltyExactlyWhenShort | vectopulse.py:158-159 | for a weighted score `s` in [0, 1], the result is `s - 0.10` (or 0 when `s < 0.10`) when either raw text is shorter than 150 characters, and `s` otherwise; for `s >= 0.10`, it is `s - 0.10` exactly when a text is short |
| Aggregator.Compare | vectopulse.py:148-159 | two non-empty texts get a score in [0, 1] |
| Aggregator.CompareSymmetric | vectopulse.py:150-159 | swapping the two texts changes none of the four scores, nor the counts of the trigram intersection |
| Aggregator.CompareBounds | vectopulse.py:153-155 | the trigram, complexity and punctuation sub-scores all lie in [0, 1] |
| Aggregator.TrigramsPresent | vectopulse.py:97-98 | a text with a non-whitespace character and at least three prepared characters has a non-empty trigram table with positive counts |
| Aggregator.CompareIdentity | vectopulse.py:150-159 | such a text scored against itself has all three sub-scores 1 and score 1.0, or 0.90 when it is shorter than 150 characters |
| Aggregator.CompareWithBlank | vectopulse.py:150-159 | against a non-empty all-whitespace text the trigram score is 0 and the score is `clamp(0.4 - 0.3e - 0.2r)` (`0.5` in place of `0.4` when neither text is short), positive whenever `e + r < 1` |
| Aggregator.Shared | vectopulse.py:171 | the keys of `(a & b).most_common(15)`; stated by `Aggregator.CompareShared` and `Aggregator.CompareSharedTiesFirstSeen` |
| Aggregator.CompareShared | vectopulse.py:171 | the shared list of two texts holds exactly `min(15, k)` distinct trigrams, for `k` trigrams in both tables, all present in both tables. They are in non-increasing order of intersection count, and no shared trigram left out counts more than one listed. Ties are in the order of the first text's table, and a tied trigram left out comes after every listed one of its count in that order. |
| Aggregator.CompareSharedTiesFirstSeen | vectopulse.py:171 | when the first text has a non-whitespace character, shared trigrams of equal intersection count are listed in the order of their first occurrence among the first text's lower-cased trigrams, and a tied trigram left out first occurs after every listed one of its count |

## Left out

- The Streamlit page: page set-up, styling, inputs, the button, the spinner, the metrics, the report text and the case-study copy (`vectopulse.py:9-72`, `111-147`, `149`, `160-170`, `172-199`). This is presentation. `Compare` keeps only the guard at line 148 that both texts be non-empty.
- `sanitize_chip` and `html.escape` (`vectopulse.py:107-108`). These are presentation and call a library outside this model.
- `@st.cache_data` (`vectopulse.py:75`). `analyze_text` is pure, so memoising it changes no result.
- NFKC normalisation (`vectopulse.py:80`). It is a parameter, `Unicode.nfkc`; Unicode Standard Annex #15 is not part of this model.
- The Unicode classes and lower-casing. `str.isspace`, `\s` and `\w` are parameters, with `\s` taken to be the same class as `str.isspace`.
- Profiler.Lower: models `str.lower` as one character to one character. Python's lower-casing can lengthen a few characters, such as U+0130, and then the windows at line 97, whose range is the unlowered length, would cover only a prefix of the lower-cased text. A per-character map also misses context: Python lowers capital sigma U+03A3 to final sigma U+03C2 at the end of a word and to U+03C3 elsewhere, which changes both the entropy characters and the trigram keys.
- Floating point. `math.log2` and `math.sqrt` are parameters with stated laws, and all arithmetic is exact real arithmetic. Rounding, and the order in which Python adds the terms, are not modelled.
- Aggregator.CosineBounds: assumes `sqrt` is the exact non-negative square root. With rounding, the computed quotient can exceed 1 by a rounding error, which is not modelled.
- Python strings may hold lone surrogate code points; Dafny's `char` cannot, so such strings are not modelled.

=== FILE: aggregator.dfy ===
/**
 * The similarity aggregator: cosine similarity of the two trigram tables, the
 * entropy and punctuation closeness scores, their weighted sum with the
 * short-sample penalty and clamp, and the ranked list of shared trigrams.
 */
module Aggregator {
  import opened Host
  import opened Counters
  import opened Profiler

  /** Inputs shorter than this many characters are penalised. */
  const ShortText: nat := 150
  const Penalty: real := 0.10
  /** How many shared trigrams are reported. */
  const SharedLimit: nat := 15

  /** `a.get(k, 0) * b.get(k, 0)`. */
  function Term(a: map<string, nat>, b: map<string, nat>, k: string): real {
    (Get(a, k) as real) * (Get(b, k) as real)
  }

  /** `sum(a.get(k, 0) * b.get(k, 0) for k in s)`. */
  ghost function Dot(a: map<string, nat>, b: map<string, nat>, s: set<string>): real
    decreases s
  {
    if s == {} then 0.0 else var k := Pick(s); Term(a, b, k) + Dot(a, b, s - {k})
  }

  /** A dot product over a set may start from any of its keys. */
  lemma {:induction false} DotRemove(a: map<string, nat>, b: map<string, nat>, s: set<string>, k: string)
    requires k in s
    ensures Dot(a, b, s) == Term(a, b, k) + Dot(a, b, s - {k})
    decreases s
  {
    var j := Pick(s);
    if j != k {
      DotRemove(a, b, s - {j}, k);
      DotRemove(a, b, s - {k}, j);
      assert s - {j} - {k} == s - {k} - {j};
    }
  }

  lemma {:induction false} DotSymmetric(a: map<string, nat>, b: map<string, nat>, s: set<string>)
    ensures Dot(a, b, s) == Dot(b, a, s)
    decreases s
  {
    if s != {} {
      DotSymmetric(a, b, s - {Pick(s)});
    }
  }

  lemma {:induction false} DotNonNegative(a: map<string, nat>, b: map<string, nat>, s: set<string>)
    ensures Dot(a, b, s) >= 0.0
    decreases s
  {
    if s != {} {
      var k := Pick(s);
      NonNegativeProduct(Get(a, k) as real, Get(b, k) as real);
      DotNonNegative(a, b, s - {k});
    }
  }

  /** Keys of `u` outside `s` whose product is zero add nothing. */
  lemma {:induction false} DotZeroOutside(a: map<string, nat>, b: map<string, nat>, s: set<string>, u: set<string>)
    requires s <= u
    requires forall k :: k in u && k !in s ==> Get(a, k) == 0 || Get(b, k) == 0
    ensures Dot(a, b, u) == Dot(a, b, s)
    decreases u
  {
    if u != s {
      var k :| k in u && k !in s;
      DotRemove(a, b, u, k);
      DotZeroOutside(a, b, s, u - {k});
    }
  }

  /** A table with a positive count on every key of a non-empty `s` has a
      positive sum of squares over `s`. */
  lemma {:induction false} SquaresPositive(a: map<string, nat>, s: set<string>)
    requires s != {}
    requires forall k :: k in s ==> Get(a, k) > 0
    ensures Dot(a, a, s) > 0.0
    decreases s
  {
    var k := Pick(s);
    DotNonNegative(a, a, s - {k});
    PositiveProduct(Get(a, k) as real, Get(a, k) as real);
  }

  lemma NonNegativeProduct(x: real, y: real)
    requires x >= 0.0 && y >= 0.0
    ensures x * y >= 0.0
  {
  }

  lemma PositiveProduct(x: real, y: real)
    requires x > 0.0 && y > 0.0
    ensures x * y > 0.0
  {
  }

  /** Squaring is strictly increasing on the non-negative reals. */
  lemma SquareGrows(t: real, w: real)
    requires 0.0 <= t < w
    ensures t * t < w * w
  {
    PositiveProduct(w - t, w + t);
    assert (w - t) * (w + t) == w * w - t * t;
  }

  lemma ExpandSquares(xy: real, xx: real, yy: real, d: real, p: real, q: real)
    ensures (xy + d) * (xy + d) == xy * xy + 2.0 * xy * d + d * d
    ensures (xx + p) * (yy + q) == xx * yy + (xx * q + p * yy) + p * q
  {
  }

  lemma LagrangeIdentity(xx: real, yy: real, xy: real, d: real, p: real, q: real)
    requires xy * xy == xx * yy
    ensures (xx * q + p * yy) * (xx * q + p * yy) - (2.0 * xy * d) * (2.0 * xy * d)
      == (xx * q - p * yy) * (xx * q - p * yy) + 4.0 * (xx * yy) * (p * q - d * d)
  {
    assert (2.0 * xy * d) * (2.0 * xy * d) == 4.0 * (xy * xy) * (d * d);
  }

  /** `d * d <= p * q`. */
  ghost predicate SquareBelow(d: real, p: real, q: real) {
    d * d <= p * q
  }

  /** One step of Cauchy-Schwarz: adding a coordinate keeps the inequality.
      Here `xy`, `xx` and `yy` stand for `x * y`, `x * x` and `y * y`. */
  lemma CauchySchwarzStep(xy: real, xx: real, yy: real, d: real, p: real, q: real)
    requires xx >= 0.0 && yy >= 0.0 && xy * xy == xx * yy
    requires p >= 0.0 && q >= 0.0 && SquareBelow(d, p, q)
    ensures SquareBelow(xy + d, xx + p, yy + q)
  {
    NonNegativeProduct(xx, q);
    NonNegativeProduct(p, yy);
    var t := xx * q + p * yy;
    var w := 2.0 * xy * d;
    LagrangeIdentity(xx, yy, xy, d, p, q);
    NonNegativeProduct(xx, yy);
    NonNegativeProduct(xx * yy, p * q - d * d);
    assert t * t - w * w >= 0.0;
    assert w <= t by {
      if w > t {
        SquareGrows(t, w);
      }
    }
    ExpandSquares(xy, xx, yy, d, p, q);
  }

  /** `CauchySchwarzStep` with the three new sums named by the caller, so that
      the caller's proof needs no arithmetic on them. */
  lemma CauchySchwarzStepAt(xy: real, xx: real, yy: real, d: real, p: real, q: real, d': real, p': real, q': real)
    requires xx >= 0.0 && yy >= 0.0 && xy * xy == xx * yy
    requires p >= 0.0 && q >= 0.0 && SquareBelow(d, p, q)
    requires d' == xy + d && p' == xx + p && q' == yy + q
    ensures SquareBelow(d', p', q')
  {
    CauchySchwarzStep(xy, xx, yy, d, p, q);
  }

  lemma TermSquare(a: map<string, nat>, b: map<string, nat>, k: string)
    ensures Term(a, a, k) >= 0.0 && Term(b, b, k) >= 0.0
    ensures Term(a, b, k) * Term(a, b, k) == Term(a, a, k) * Term(b, b, k)
  {
    var x, y := Get(a, k) as real, Get(b, k) as real;
    NonNegativeProduct(x, x);
    NonNegativeProduct(y, y);
    assert (x * y) * (x * y) == (x * x) * (y * y);
  }

  /** The square of a dot product is at most the product of the two sums of squares. */
  lemma {:induction false} CauchySchwarz(a: map<string, nat>, b: map<string, nat>, s: set<string>)
    ensures SquareBelow(Dot(a, b, s), Dot(a, a, s), Dot(b, b, s))
    decreases s
  {
    if s != {} {
      var k := Pick(s);
      CauchySchwarz(a, b, s - {k});
      CauchySchwarzAdd(a, b, s, k);
    }
  }

  /** The inequality over `s - {k}` gives the inequality over `s`, when `k`
      is the key the sums over `s` start from. */
  lemma CauchySchwarzAdd(a: map<string, nat>, b: map<string, nat>, s: set<string>, k: string)
    requires s != {} && k == Pick(s)
    requires SquareBelow(Dot(a, b, s - {k}), Dot(a, a, s - {k}), Dot(b, b, s - {k}))
    ensures SquareBelow(Dot(a, b, s), Dot(a, a, s), Dot(b, b, s))
  {
    var rest := s - {k};
    DotNonNegative(a, a, rest);
    DotNonNegative(b, b, rest);
    TermSquare(a, b, k);
    CauchySchwarzStepAt(Term(a, b, k), Term(a, a, k), Term(b, b, k),
      Dot(a, b, rest), Dot(a, a, rest), Dot(b, b, rest),
      Dot(a, b, s), Dot(a, a, s), Dot(b, b, s));
  }

  /** The dot product of two tables, over the union of their keys. */
  ghost function DotProduct(a: map<string, nat>, b: map<string, nat>): real {
    Dot(a, b, a.Keys + b.Keys)
  }

  /** `sum(v**2 for v in a.values())`. */
  ghost function SquareSum(a: map<string, nat>): real {
    Dot(a, a, a.Keys)
  }

  /** `dot / (mag1 * mag2) if (mag1 * mag2) else 0`. */
  function Quotient(dot: real, mag1: real, mag2: real): real {
    if mag1 * mag2 != 0.0 then dot / (mag1 * mag2) else 0.0
  }

  /** `calculate_cosine_sim(a, b)`. */
  ghost function Cosine(n: Numerics, a: map<string, nat>, b: map<string, nat>): real {
    Quotient(DotProduct(a, b), Sqrt(n, SquareSum(a)), Sqrt(n, SquareSum(b)))
  }

  /** Summing over the union of keys gives the same dot product as summing
      over the shared keys only, and it is never negative. */
  lemma DotProductShared(a: map<string, nat>, b: map<string, nat>)
    ensures DotProduct(a, b) == Dot(a, b, a.Keys * b.Keys)
    ensures DotProduct(a, b) >= 0.0
  {
    DotZeroOutside(a, b, a.Keys * b.Keys, a.Keys + b.Keys);
    DotNonNegative(a, b, a.Keys + b.Keys);
  }

  lemma CosineSymmetric(n: Numerics, a: map<string, nat>, b: map<string, nat>)
    ensures Cosine(n, a, b) == Cosine(n, b, a)
  {
    assert a.Keys + b.Keys == b.Keys + a.Keys;
    DotSymmetric(a, b, a.Keys + b.Keys);
  }

  /** A table with no trigrams is 0 similar to anything: no division by zero. */
  lemma CosineOfEmpty(n: Numerics, a: map<string, nat>, b: map<string, nat>)
    requires a == map[] || b == map[]
    ensures Cosine(n, a, b) == 0.0
  {
    DotZeroOutside(a, b, {}, a.Keys + b.Keys);
    assert DotProduct(a, b) == 0.0;
    var m1, m2 := Sqrt(n, SquareSum(a)), Sqrt(n, SquareSum(b));
    assert Quotient(0.0, m1, m2) == 0.0;
  }

  /** `d / (m1 * m2)`, guarded against zero, lies in [0, 1] when `m1` and `m2`
      are the roots of `n1` and `n2` and `d * d <= n1 * n2`. */
  lemma QuotientOfRoots(d: real, n1: real, n2: real, m1: real, m2: real)
    requires d >= 0.0 && m1 >= 0.0 && m2 >= 0.0
    requires m1 * m1 == n1 && m2 * m2 == n2
    requires SquareBelow(d, n1, n2)
    ensures 0.0 <= Quotient(d, m1, m2) <= 1.0
  {
    var m := m1 * m2;
    NonNegativeProduct(m1, m2);
    assert m * m == n1 * n2 by {
      assert m * m == (m1 * m1) * (m2 * m2);
    }
    if m != 0.0 {
      assert d <= m by {
        if d > m {
          SquareGrows(m, d);
        }
      }
      assert d / m <= 1.0;
    }
  }

  /** Cauchy–Schwarz for two tables: the squared dot product is at most the
      product of the two sums of squares, and all three are non-negative. */
  lemma TablesCauchySchwarz(a: map<string, nat>, b: map<string, nat>)
    ensures DotProduct(a, b) >= 0.0 && SquareSum(a) >= 0.0 && SquareSum(b) >= 0.0
    ensures SquareBelow(DotProduct(a, b), SquareSum(a), SquareSum(b))
  {
    var u := a.Keys + b.Keys;
    DotProductShared(a, b);
    DotZeroOutside(a, a, a.Keys, u);
    DotZeroOutside(b, b, b.Keys, u);
    CauchySchwarz(a, b, u);
    DotNonNegative(a, a, a.Keys);
    DotNonNegative(b, b, b.Keys);
  }

  /** The cosine similarity lies in [0, 1]. */
  lemma CosineBounds(n: Numerics, a: map<string, nat>, b: map<string, nat>)
    requires SqrtIsRoot(n)
    ensures 0.0 <= Cosine(n, a, b) <= 1.0
  {
    TablesCauchySchwarz(a, b);
    QuotientOfRoots(DotProduct(a, b), SquareSum(a), SquareSum(b), Sqrt(n, SquareSum(a)), Sqrt(n, SquareSum(b)));
  }

  lemma QuotientOfSquare(p: real, m: real)
    requires m * m == p && p > 0.0
    ensures Quotient(p, m, m) == 1.0
  {
    assert p / p == 1.0;
    assert p / (m * m) == p / p;
  }

  /** A non-empty table is fully similar to itself. */
  lemma CosineSelf(n: Numerics, a: map<string, nat>)
    requires SqrtIsRoot(n)
    requires a != map[] && forall k :: k in a ==> a[k] > 0
    ensures Cosine(n, a, a) == 1.0
  {
    assert a.Keys + a.Keys == a.Keys;
    assert a.Keys != {} by {
      var k :| k in a;
    }
    SquaresPositive(a, a.Keys);
    var m := Sqrt(n, SquareSum(a));
    assert m * m == SquareSum(a) > 0.0;
    assert DotProduct(a, a) == SquareSum(a);
    QuotientOfSquare(SquareSum(a), m);
  }

  /** `1 - abs(x - y)`: how close two ratios are. */
  function Closeness(x: real, y: real): (r: real)
    ensures r <= 1.0
    ensures r == 1.0 <==> x == y
    ensures 0.0 <= x <= 1.0 && 0.0 <= y <= 1.0 ==> 0.0 <= r
  {
    1.0 - (if x - y < 0.0 then y - x else x - y)
  }

  lemma ClosenessSymmetric(x: real, y: real)
    ensures Closeness(x, y) == Closeness(y, x)
  {
  }

  /** The weighted sum of the three sub-scores (weights 0.5, 0.3 and 0.2). */
  function Weighted(trigram: real, complexity: real, punctuation: real): (s: real)
    ensures 0.0 <= trigram <= 1.0 && 0.0 <= complexity <= 1.0 && 0.0 <= punctuation <= 1.0 ==>
      && 0.0 <= s <= 1.0
      && (s == 1.0 <==> trigram == 1.0 && complexity == 1.0 && punctuation == 1.0)
  {
    trigram * 0.5 + complexity * 0.3 + punctuation * 0.2
  }

  /** `max(0, min(s, 1))`. */
  function Clamp(s: real): (r: real)
    ensures 0.0 <= r <= 1.0
    ensures 0.0 <= s <= 1.0 ==> r == s
    ensures s < 0.0 ==> r == 0.0
    ensures s > 1.0 ==> r == 1.0
  {
    if s < 0.0 then 0.0 else if s > 1.0 then 1.0 else s
  }

  predicate IsShort(lenA: nat, lenB: nat) {
    lenA < ShortText || lenB < ShortText
  }

  /** The short-sample penalty, then the clamp. */
  function FinalScore(s: real, lenA: nat, lenB: nat): (r: real)
    ensures 0.0 <= r <= 1.0
  {
    Clamp(if IsShort(lenA, lenB) then s - Penalty else s)
  }

  /** For a weighted score in [0, 1], the penalty lowers it by exactly 0.10
      (stopping at 0) when either input is short, and leaves it as it is
      otherwise. */
  lemma PenaltyExactlyWhenShort(s: real, lenA: nat, lenB: nat)
    requires 0.0 <= s <= 1.0
    ensures IsShort(lenA, lenB) ==> FinalScore(s, lenA, lenB) == if s < Penalty then 0.0 else s - Penalty
    ensures !IsShort(lenA, lenB) ==> FinalScore(s, lenA, lenB) == s
    ensures s >= Penalty ==> (FinalScore(s, lenA, lenB) == s - Penalty <==> IsShort(lenA, lenB))
  {
  }

  /** What the engine reports for a pair of texts. */
  datatype Similarity = Similarity(
    score: real,
    trigram: real,
    complexity: real,
    punctuation: real,
    shared: seq<string>)

  /** The shared trigrams: the keys of `(a & b).most_common(15)`. */
  function Shared(a: Counter<string>, b: Counter<string>): seq<string>
    requires Valid(a) && Valid(b)
  {
    MostCommon(Intersect(a, b), SharedLimit)
  }

  /** Profiles both texts and scores them against each other; the page only
      does so when both texts are non-empty. */
  ghost function Compare(u: Unicode, n: Numerics, textA: string, textB: string): (r: Similarity)
    requires textA != [] && textB != []
    ensures 0.0 <= r.score <= 1.0
  {
    var pa := Analyze(u, n, textA);
    var pb := Analyze(u, n, textB);
    var trigram := Cosine(n, pa.trigrams.counts, pb.trigrams.counts);
    var complexity := Closeness(pa.entropy, pb.entropy);
    var punctuation := Closeness(pa.punctuation, pb.punctuation);
    Similarity(ScoreOf(n, pa, pb, |textA|, |textB|), trigram, complexity, punctuation, Shared(pa.trigrams, pb.trigrams))
  }

  /** The similarity index of two profiles of texts of lengths `lenA` and `lenB`. */
  ghost function ScoreOf(n: Numerics, pa: Profile, pb: Profile, lenA: nat, lenB: nat): (r: real)
    ensures 0.0 <= r <= 1.0
  {
    var trigram := Cosine(n, pa.trigrams.counts, pb.trigrams.counts);
    FinalScore(Weighted(trigram, Closeness(pa.entropy, pb.entropy), Closeness(pa.punctuation, pb.punctuation)), lenA, lenB)
  }

  /** Swapping the texts changes no score and not the counted intersection. */
  lemma CompareSymmetric(u: Unicode, n: Numerics, textA: string, textB: string)
    requires textA != [] && textB != []
    ensures var ab, ba := Compare(u, n, textA, textB), Compare(u, n, textB, textA);
      && ab.score == ba.score
      && ab.trigram == ba.trigram
      && ab.complexity == ba.complexity
      && ab.punctuation == ba.punctuation
    ensures var pa, pb := Analyze(u, n, textA), Analyze(u, n, textB);
      Intersect(pa.trigrams, pb.trigrams).counts == Intersect(pb.trigrams, pa.trigrams).counts
  {
    var pa, pb := Analyze(u, n, textA), Analyze(u, n, textB);
    CosineSymmetric(n, pa.trigrams.counts, pb.trigrams.counts);
    ClosenessSymmetric(pa.entropy, pb.entropy);
    ClosenessSymmetric(pa.punctuation, pb.punctuation);
    ScoreOfSymmetric(n, pa, pb, |textA|, |textB|);
    IntersectCommutes(pa.trigrams, pb.trigrams);
  }

  /** The similarity index does not depend on the order of the profiles. */
  lemma ScoreOfSymmetric(n: Numerics, pa: Profile, pb: Profile, lenA: nat, lenB: nat)
    ensures ScoreOf(n, pa, pb, lenA, lenB) == ScoreOf(n, pb, pa, lenB, lenA)
  {
    CosineSymmetric(n, pa.trigrams.counts, pb.trigrams.counts);
    ClosenessSymmetric(pa.entropy, pb.entropy);
    ClosenessSymmetric(pa.punctuation, pb.punctuation);
  }

  /** Every sub-score lies in [0, 1]. */
  lemma CompareBounds(u: Unicode, n: Numerics, textA: string, textB: string)
    requires textA != [] && textB != []
    requires LowerKeepsSpace(u) && Log2OfProbability(n) && SqrtIsRoot(n)
    ensures var r := Compare(u, n, textA, textB);
      && 0.0 <= r.trigram <= 1.0
      && 0.0 <= r.complexity <= 1.0
      && 0.0 <= r.punctuation <= 1.0
  {
    var pa, pb := Analyze(u, n, textA), Analyze(u, n, textB);
    ProfileBounds(u, n, textA);
    ProfileBounds(u, n, textB);
    CosineBounds(n, pa.trigrams.counts, pb.trigrams.counts);
  }

  lemma WindowsPresent(t: string)
    requires |t| >= 3
    ensures var table := Tally(Windows(t)).counts;
      table != map[] && forall k :: k in table ==> table[k] > 0
  {
    assert Windows(t)[0] == t[0..3];
  }

  /** A text with a non-whitespace character and at least three characters
      after truncation has a non-empty trigram table. */
  lemma TrigramsPresent(u: Unicode, n: Numerics, text: string)
    requires LowerKeepsSpace(u)
    requires text != [] && |Prepared(u, text)| >= 3
    requires exists i :: 0 <= i < |Prepared(u, text)| && !u.isSpace(Prepared(u, text)[i])
    ensures var table := Analyze(u, n, text).trigrams.counts;
      table != map[] && forall k :: k in table ==> table[k] > 0
  {
    var t := Lower(u, Prepared(u, text));
    DegenerateExactly(u, n, text);
    WindowsPresent(t);
  }

  /** A profile scored against itself: every sub-score is 1 when the trigram
      score is 1, and the score is then 1 less the short-text penalty. */
  lemma SelfScore(u: Unicode, n: Numerics, text: string)
    requires text != []
    requires Cosine(n, Analyze(u, n, text).trigrams.counts, Analyze(u, n, text).trigrams.counts) == 1.0
    ensures var r := Compare(u, n, text, text);
      && r.trigram == 1.0 && r.complexity == 1.0 && r.punctuation == 1.0
      && r.score == if |text| < ShortText then 0.9 else 1.0
  {
    var p := Analyze(u, n, text);
    assert Weighted(1.0, 1.0, 1.0) == 1.0;
    assert Compare(u, n, text, text).score == FinalScore(1.0, |text|, |text|);
  }

  /** A text with at least one trigram scores 1 against itself, or 0.90 when
      it is shorter than 150 characters. */
  lemma CompareIdentity(u: Unicode, n: Numerics, text: string)
    requires LowerKeepsSpace(u) && SqrtIsRoot(n)
    requires text != [] && |Prepared(u, text)| >= 3
    requires exists i :: 0 <= i < |Prepared(u, text)| && !u.isSpace(Prepared(u, text)[i])
    ensures var r := Compare(u, n, text, text);
      && r.trigram == 1.0 && r.complexity == 1.0 && r.punctuation == 1.0
      && r.score == if |text| < ShortText then 0.9 else 1.0
  {
    TrigramsPresent(u, n, text);
    CosineSelf(n, Analyze(u, n, text).trigrams.counts);
    SelfScore(u, n, text);
  }

  /** Against a text with no non-whitespace character the trigram score is
      0, and the score is not 0 in general: it is `0.4 - 0.3 e - 0.2 r`
      (`0.5 - 0.3 e - 0.2 r` when neither text is short), clamped, for the
      other text's entropy `e` and punctuation ratio `r`, so it is positive
      whenever `e + r < 1`. */
  lemma CompareWithBlank(u: Unicode, n: Numerics, blank: string, text: string)
    requires LowerKeepsSpace(u) && Log2OfProbability(n)
    requires blank != [] && text != []
    requires forall i :: 0 <= i < |Prepared(u, blank)| ==> u.isSpace(Prepared(u, blank)[i])
    ensures var p, r := Analyze(u, n, text), Compare(u, n, blank, text);
      && r.trigram == 0.0
      && r.score == Clamp((if IsShort(|blank|, |text|) then 0.4 else 0.5) - 0.3 * p.entropy - 0.2 * p.punctuation)
      && (p.entropy + p.punctuation < 1.0 ==> r.score > 0.0)
  {
    var p := Analyze(u, n, text);
    assert Analyze(u, n, blank) == Degenerate by { DegenerateExactly(u, n, blank); }
    CosineOfEmpty(n, map[], p.trigrams.counts);
    ProfileBounds(u, n, text);
    ScoreAgainstDegenerate(n, p, |blank|, |text|);
    assert Compare(u, n, blank, text).score == ScoreOf(n, Degenerate, p, |blank|, |text|);
    assert Compare(u, n, blank, text).trigram == 0.0;
  }

  /** The score of a degenerate profile against a profile with entropy `e`
      and punctuation ratio `r` in [0, 1]. */
  lemma ScoreAgainstDegenerate(n: Numerics, p: Profile, lenA: nat, lenB: nat)
    requires 0.0 <= p.entropy <= 1.0 && 0.0 <= p.punctuation <= 1.0
    ensures var score, e, r := ScoreOf(n, Degenerate, p, lenA, lenB), p.entropy, p.punctuation;
      && score == Clamp((if IsShort(lenA, lenB) then 0.4 else 0.5) - 0.3 * e - 0.2 * r)
      && (e + r < 1.0 ==> score > 0.0)
  {
    CosineOfEmpty(n, map[], p.trigrams.counts);
  }

  /** The shared list of two texts: at most 15 distinct trigrams found in
      both, ranked by non-increasing intersection count, equal counts in the
      order of the first text's table. */
  lemma CompareShared(u: Unicode, n: Numerics, textA: string, textB: string)
    requires textA != [] && textB != []
    ensures var pa, pb := Analyze(u, n, textA), Analyze(u, n, textB);
      var shared, c := Compare(u, n, textA, textB).shared, Intersect(pa.trigrams, pb.trigrams);
      && |shared| == (if SharedLimit < |c.order| then SharedLimit else |c.order|)
      && Distinct(shared)
      && (forall k :: k in shared ==> k in pa.trigrams.counts && k in pb.trigrams.counts)
      && NonIncreasing(c.counts, shared)
      && (forall k, j :: k in c.counts && k !in shared && 0 <= j < |shared| ==>
            Get(c.counts, k) <= Get(c.counts, shared[j]))
      && TiesKeepOrder(c.counts, pa.trigrams.order, shared)
      && (forall k, j :: k in c.counts && k !in shared && 0 <= j < |shared| && Get(c.counts, k) == Get(c.counts, shared[j])
            ==> Precedes(pa.trigrams.order, shared[j], k))
  {
    var pa, pb := Analyze(u, n, textA), Analyze(u, n, textB);
    MostCommonShared(pa.trigrams, pb.trigrams, SharedLimit);
    MostCommonSharedTies(pa.trigrams, pb.trigrams, SharedLimit);
    MostCommonSharedCutTies(pa.trigrams, pb.trigrams, SharedLimit);
  }

  /** When the first text has a non-whitespace character, shared trigrams of
      equal intersection count are listed in the order in which they first
      occur in the first text's lower-cased prepared text. */
  lemma CompareSharedTiesFirstSeen(u: Unicode, n: Numerics, textA: string, textB: string)
    requires LowerKeepsSpace(u)
    requires textA != [] && textB != []
    requires exists i :: 0 <= i < |Prepared(u, textA)| && !u.isSpace(Prepared(u, textA)[i])
    ensures var shared := Compare(u, n, textA, textB).shared;
      var common := Intersect(Analyze(u, n, textA).trigrams, Analyze(u, n, textB).trigrams).counts;
      var ws := Windows(Lower(u, Prepared(u, textA)));
      && (forall i, j :: 0 <= i < j < |shared| && Get(common, shared[i]) == Get(common, shared[j]) ==>
            SeenFirst(ws, shared[i], shared[j]))
      && (forall k, j :: k in common && k !in shared && 0 <= j < |shared| && Get(common, k) == Get(common, shared[j])
            ==> SeenFirst(ws, shared[j], k))
  {
    var pa, pb := Analyze(u, n, textA), Analyze(u, n, textB);
    var ws := Windows(Lower(u, Prepared(u, textA)));
    DegenerateExactly(u, n, textA);
    TallyFirstSeen(ws);
    MostCommonSharedTies(pa.trigrams, pb.trigrams, SharedLimit);
    var shared, common := Shared(pa.trigrams, pb.trigrams), Intersect(pa.trigrams, pb.trigrams).counts;
    forall i, j | 0 <= i < j < |shared| && Get(common, shared[i]) == Get(common, shared[j])
      ensures SeenFirst(ws, shared[i], shared[j])
    {
      PrecedesSeenFirst(ws, pa.trigrams.order, shared[i], shared[j]);
    }
    MostCommonSharedCutTies(pa.trigrams, pb.trigrams, SharedLimit);
    forall k, j | k in common && k !in shared && 0 <= j < |shared| && Get(common, k) == Get(common, shared[j])
      ensures SeenFirst(ws, shared[j], k)
    {
      PrecedesSeenFirst(ws, pa.trigrams.order, shared[j], k);
    }
  }
}

=== FILE: counters.dfy ===
/**
 * Python's `collections.Counter`, as far as the scoring engine uses it: a
 * dictionary from keys to positive counts that remembers the order in which
 * keys were first inserted, built from a list (`Counter(xs)`), intersected
 * (`a & b`) and ranked (`most_common(n)`).
 */
module Counters {

  /** `counts` is the dictionary; `order` is its key order (insertion order). */
  datatype Counter<T> = Counter(counts: map<T, nat>, order: seq<T>)

  ghost predicate Distinct<T(!new)>(s: seq<T>) {
    forall i, j :: 0 <= i < j < |s| ==> s[i] != s[j]
  }

  /** Every key is counted at least once and `order` lists each key exactly once. */
  ghost predicate Valid<T(!new)>(c: Counter<T>) {
    && Distinct(c.order)
    && (forall k :: k in c.counts <==> k in c.order)
    && (forall k :: k in c.counts ==> c.counts[k] > 0)
  }

  function Min(x: nat, y: nat): nat {
    if x < y then x else y
  }

  /** `c.get(k, 0)`: the count of `k`, zero when absent. */
  function Get<T(==,!new)>(m: map<T, nat>, k: T): nat {
    if k in m then m[k] else 0
  }

  /** Number of occurrences of `x` in `xs`. */
  function Count<T(==,!new)>(xs: seq<T>, x: T): (n: nat)
    ensures n <= |xs|
    ensures n > 0 <==> x in xs
  {
    if xs == [] then 0
    else
      assert xs == xs[..|xs| - 1] + [xs[|xs| - 1]];
      Count(xs[..|xs| - 1], x) + if xs[|xs| - 1] == x then 1 else 0
  }

  /** Dictionary assignment `c[k] = v`: an existing key keeps its place, a new
      key goes last. */
  function Assign<T(==,!new)>(c: Counter<T>, k: T, v: nat): (r: Counter<T>)
    ensures Valid(c) && v > 0 ==> Valid(r)
    ensures r.counts == c.counts[k := v]
    ensures c.order <= r.order
  {
    if k in c.counts then Counter(c.counts[k := v], c.order)
    else Counter(c.counts[k := v], c.order + [k])
  }

  /** `Counter(xs)`: count every element of `xs`. */
  function Tally<T(==,!new)>(xs: seq<T>): (c: Counter<T>)
    ensures Valid(c)
    ensures forall k :: k in c.counts <==> k in xs
    ensures forall k :: k in c.counts ==> c.counts[k] == Count(xs, k)
  {
    if xs == [] then Counter(map[], [])
    else
      var x := xs[|xs| - 1];
      var c := Tally(xs[..|xs| - 1]);
      assert xs == xs[..|xs| - 1] + [x];
      Assign(c, x, Get(c.counts, x) + 1)
  }

  /** Any element of a non-empty set, used to sum over a set. */
  ghost function Pick<T(!new)>(s: set<T>): (x: T)
    requires s != {}
    ensures x in s
  {
    var x :| x in s; x
  }

  /** Sum of the counts of the keys in `s`. */
  ghost function SumOver<T(!new)>(m: map<T, nat>, s: set<T>): nat
    decreases s
  {
    if s == {} then 0 else var k := Pick(s); Get(m, k) + SumOver(m, s - {k})
  }

  /** `sum(c.values())`. */
  ghost function Total<T(!new)>(m: map<T, nat>): nat {
    SumOver(m, m.Keys)
  }

  /** A sum over a set may start from any of its elements. */
  lemma {:induction false} SumOverRemove<T(!new)>(m: map<T, nat>, s: set<T>, k: T)
    requires k in s
    ensures SumOver(m, s) == Get(m, k) + SumOver(m, s - {k})
    decreases s
  {
    var j := Pick(s);
    if j != k {
      SumOverRemove(m, s - {j}, k);
      SumOverRemove(m, s - {k}, j);
      assert s - {j} - {k} == s - {k} - {j};
    }
  }

  /** Two dictionaries that agree on `s` have the same sum over `s`. */
  lemma {:induction false} SumOverAgree<T(!new)>(m1: map<T, nat>, m2: map<T, nat>, s: set<T>)
    requires forall k :: k in s ==> Get(m1, k) == Get(m2, k)
    ensures SumOver(m1, s) == SumOver(m2, s)
    decreases s
  {
    if s != {} {
      SumOverAgree(m1, m2, s - {Pick(s)});
    }
  }

  /** Counting one more occurrence of `x` adds one to the total. */
  lemma TotalBump<T(!new)>(m: map<T, nat>, x: T)
    ensures Total(m[x := Get(m, x) + 1]) == Total(m) + 1
  {
    var m' := m[x := Get(m, x) + 1];
    SumOverRemove(m', m'.Keys, x);
    assert m'.Keys - {x} == m.Keys - {x};
    SumOverAgree(m', m, m.Keys - {x});
    if x in m {
      SumOverRemove(m, m.Keys, x);
    } else {
      assert m.Keys - {x} == m.Keys;
    }
  }

  /** The counts of `Counter(xs)` add up to `len(xs)`. */
  lemma {:induction false} TallyTotal<T(!new)>(xs: seq<T>)
    ensures Total(Tally(xs).counts) == |xs|
  {
    if xs != [] {
      var x := xs[|xs| - 1];
      var m := Tally(xs[..|xs| - 1]).counts;
      assert Tally(xs).counts == m[x := Get(m, x) + 1];
      TallyTotal(xs[..|xs| - 1]);
      TotalBump(m, x);
    }
  }

  /** `a & b` over the keys `keys`, in their order: a key is kept with the
      smaller of its two counts when that is positive. */
  function IntersectOver<T(==,!new)>(keys: seq<T>, a: map<T, nat>, b: map<T, nat>): (r: Counter<T>)
    ensures Valid(r)
    ensures forall k :: k in r.counts <==> k in keys && Min(Get(a, k), Get(b, k)) > 0
    ensures forall k :: k in r.counts ==> r.counts[k] == Min(Get(a, k), Get(b, k))
  {
    if keys == [] then Counter(map[], [])
    else
      var k := keys[|keys| - 1];
      var r := IntersectOver(keys[..|keys| - 1], a, b);
      var n := Min(Get(a, k), Get(b, k));
      assert keys == keys[..|keys| - 1] + [k];
      if n > 0 then Assign(r, k, n) else r
  }

  /** `a & b`: iterates over `a`'s keys in `a`'s order. */
  function Intersect<T(==,!new)>(a: Counter<T>, b: Counter<T>): (r: Counter<T>)
    requires Valid(a) && Valid(b)
    ensures Valid(r)
    ensures forall k :: k in r.counts <==> k in a.counts && k in b.counts
    ensures forall k :: k in r.counts ==> r.counts[k] == Min(a.counts[k], b.counts[k])
  {
    IntersectOver(a.order, a.counts, b.counts)
  }

  lemma SameMinimum<T(!new)>(ab: map<T, nat>, ba: map<T, nat>, a: map<T, nat>, b: map<T, nat>)
    requires forall k :: k in ab <==> k in a && k in b
    requires forall k :: k in ba <==> k in b && k in a
    requires forall k :: k in ab ==> ab[k] == Min(a[k], b[k])
    requires forall k :: k in ba ==> ba[k] == Min(b[k], a[k])
    ensures ab == ba
  {
    assert ab.Keys == ba.Keys;
  }

  /** The counted intersection does not depend on which side comes first. */
  lemma IntersectCommutes<T(!new)>(a: Counter<T>, b: Counter<T>)
    requires Valid(a) && Valid(b)
    ensures Intersect(a, b).counts == Intersect(b, a).counts
  {
    SameMinimum(Intersect(a, b).counts, Intersect(b, a).counts, a.counts, b.counts);
  }

  ghost predicate NonIncreasing<T(!new)>(cnt: map<T, nat>, s: seq<T>) {
    forall i, j :: 0 <= i < j < |s| ==> Get(cnt, s[i]) >= Get(cnt, s[j])
  }

  /** Puts `x` in front of the first element whose count is not larger. */
  function InsertByCount<T(==,!new)>(cnt: map<T, nat>, x: T, s: seq<T>): (r: seq<T>)
    ensures multiset(r) == multiset(s) + multiset{x}
    ensures forall y :: y in r <==> y in s || y == x
  {
    if s == [] || Get(cnt, s[0]) <= Get(cnt, x) then [x] + s
    else
      assert s == [s[0]] + s[1..];
      [s[0]] + InsertByCount(cnt, x, s[1..])
  }

  /** Inserting into a ranked sequence leaves it ranked. */
  lemma {:induction false} InsertKeepsRanked<T(!new)>(cnt: map<T, nat>, x: T, s: seq<T>)
    requires NonIncreasing(cnt, s)
    ensures NonIncreasing(cnt, InsertByCount(cnt, x, s))
  {
    if !(s == [] || Get(cnt, s[0]) <= Get(cnt, x)) {
      var r' := InsertByCount(cnt, x, s[1..]);
      InsertKeepsRanked(cnt, x, s[1..]);
      forall y | y in r' ensures Get(cnt, s[0]) >= Get(cnt, y) {
        if y != x {
          var i :| 0 <= i < |s[1..]| && s[1..][i] == y;
          assert s[i + 1] == y;
        }
      }
      var r := [s[0]] + r';
      forall i, j | 0 <= i < j < |r| ensures Get(cnt, r[i]) >= Get(cnt, r[j]) {
        if i > 0 {
          assert r[i] == r'[i - 1] && r[j] == r'[j - 1];
        } else {
          assert r[j] in r';
        }
      }
    }
  }

  /** Inserting a new element into a repetition-free sequence repeats nothing. */
  lemma {:induction false} InsertKeepsDistinct<T(!new)>(cnt: map<T, nat>, x: T, s: seq<T>)
    ensures Distinct(s) && x !in s ==> Distinct(InsertByCount(cnt, x, s))
  {
    if Distinct(s) && x !in s && !(s == [] || Get(cnt, s[0]) <= Get(cnt, x)) {
      TailDistinct(s);
      var r' := InsertByCount(cnt, x, s[1..]);
      InsertKeepsDistinct(cnt, x, s[1..]);
      assert s[0] !in s[1..];
      var r := [s[0]] + r';
      forall i, j | 0 <= i < j < |r| ensures r[i] != r[j] {
        if i > 0 {
          assert r[i] == r'[i - 1] && r[j] == r'[j - 1];
        } else {
          assert r[j] in r';
        }
      }
    }
  }

  lemma TailDistinct<T(!new)>(xs: seq<T>)
    requires xs != []
    ensures Distinct(xs) ==> Distinct(xs[1..]) && xs[0] !in xs[1..]
  {
    if Distinct(xs) {
      forall i, j | 0 <= i < j < |xs[1..]| ensures xs[1..][i] != xs[1..][j] {
        assert xs[1..][i] == xs[i + 1] && xs[1..][j] == xs[j + 1];
      }
    }
  }

  /** `sorted(xs, key=count, reverse=True)`: a stable sort by decreasing count. */
  function SortByCount<T(==,!new)>(cnt: map<T, nat>, xs: seq<T>): (r: seq<T>)
    ensures multiset(r) == multiset(xs)
    ensures |r| == |xs|
    ensures forall y :: y in r <==> y in xs
    ensures NonIncreasing(cnt, r)
  {
    if xs == [] then []
    else
      var rest := SortByCount(cnt, xs[1..]);
      assert xs == [xs[0]] + xs[1..];
      InsertKeepsRanked(cnt, xs[0], rest);
      InsertByCount(cnt, xs[0], rest)
  }

  /** Sorting a repetition-free sequence repeats nothing. */
  lemma {:induction false} SortKeepsDistinct<T(!new)>(cnt: map<T, nat>, xs: seq<T>)
    requires Distinct(xs)
    ensures Distinct(SortByCount(cnt, xs))
  {
    if xs != [] {
      TailDistinct(xs);
      SortKeepsDistinct(cnt, xs[1..]);
      InsertKeepsDistinct(cnt, xs[0], SortByCount(cnt, xs[1..]));
    }
  }

  /** The keys of `c.most_common(n)`. */
  function MostCommon<T(==,!new)>(c: Counter<T>, n: nat): seq<T> {
    var sorted := SortByCount(c.counts, c.order);
    sorted[..if n < |sorted| then n else |sorted|]
  }

  /** A prefix of a ranked, repetition-free sequence is ranked and
      repetition-free, and no element after the prefix counts more than any
      element in it. */
  lemma PrefixRanks<T(!new)>(cnt: map<T, nat>, s: seq<T>, m: nat)
    requires Distinct(s) && NonIncreasing(cnt, s) && m <= |s|
    ensures Distinct(s[..m]) && NonIncreasing(cnt, s[..m])
    ensures forall k, j :: k in s && k !in s[..m] && 0 <= j < m ==> Get(cnt, k) <= Get(cnt, s[j])
  {
    var r := s[..m];
    assert forall i :: 0 <= i < m ==> r[i] == s[i] && r[i] in r;
    forall k, j | k in s && k !in r && 0 <= j < m
      ensures Get(cnt, k) <= Get(cnt, s[j])
    {
      var p :| 0 <= p < |s| && s[p] == k;
      assert p >= m;
    }
  }

  /** The `n` keys `most_common` returns are distinct keys of `c`, ranked by
      non-increasing count; there are `n` of them unless `c` has fewer keys,
      and every key left out counts no more than any key returned. */
  lemma MostCommonRanks<T(!new)>(c: Counter<T>, n: nat)
    requires Valid(c)
    ensures var r := MostCommon(c, n);
      && |r| == (if n < |c.order| then n else |c.order|)
      && Distinct(r)
      && NonIncreasing(c.counts, r)
      && (forall k :: k in r ==> k in c.counts)
      && (|c.order| <= n ==> forall k :: k in c.counts ==> k in r)
      && (forall k, j :: k in c.counts && k !in r && 0 <= j < |r| ==> Get(c.counts, k) <= Get(c.counts, r[j]))
  {
    var sorted := SortByCount(c.counts, c.order);
    SortKeepsDistinct(c.counts, c.order);
    var m := if n < |sorted| then n else |sorted|;
    PrefixRanks(c.counts, sorted, m);
    var r := sorted[..m];
    assert r == MostCommon(c, n);
    forall k | k in c.counts ensures k in sorted {
      assert k in c.order;
    }
    forall k | k in r ensures k in c.counts {
      assert k in sorted;
    }
    if m == |sorted| {
      assert r == sorted;
    }
  }

  /** `(a & b).most_common(n)`: at most `n` distinct keys of both tables, each
      with its intersection count `min(a[k], b[k]) > 0`, ranked by that count;
      every shared key when there are at most `n` of them, and no left-out
      shared key counts more than a listed one. */
  lemma MostCommonShared<T(!new)>(a: Counter<T>, b: Counter<T>, n: nat)
    requires Valid(a) && Valid(b)
    ensures var c := Intersect(a, b);
      |MostCommon(c, n)| == if n < |c.order| then n else |c.order|
    ensures |Intersect(a, b).order| <= n ==>
      forall k :: k in Intersect(a, b).counts ==> k in MostCommon(Intersect(a, b), n)
    ensures Distinct(MostCommon(Intersect(a, b), n))
    ensures NonIncreasing(Intersect(a, b).counts, MostCommon(Intersect(a, b), n))
    ensures forall k :: k in MostCommon(Intersect(a, b), n) ==>
      k in a.counts && k in b.counts && Intersect(a, b).counts[k] == Min(a.counts[k], b.counts[k]) > 0
    ensures var r, common := MostCommon(Intersect(a, b), n), Intersect(a, b).counts;
      forall k, j :: k in common && k !in r && 0 <= j < |r| ==> Get(common, k) <= Get(common, r[j])
  {
    MostCommonRanks(Intersect(a, b), n);
  }

  /** `x` occurs in `xs` at some position before an occurrence of `y`. */
  ghost predicate Precedes<T(!new)>(xs: seq<T>, x: T, y: T) {
    exists i, j :: 0 <= i < j < |xs| && xs[i] == x && xs[j] == y
  }

  /** Keys of equal count keep the order they have in `xs`. */
  ghost predicate TiesKeepOrder<T(!new)>(cnt: map<T, nat>, xs: seq<T>, r: seq<T>) {
    forall i, j :: 0 <= i < j < |r| && Get(cnt, r[i]) == Get(cnt, r[j]) ==> Precedes(xs, r[i], r[j])
  }

  lemma PrecedesTail<T(!new)>(xs: seq<T>, x: T, y: T)
    requires xs != [] && Precedes(xs[1..], x, y)
    ensures Precedes(xs, x, y)
  {
    var i, j :| 0 <= i < j < |xs[1..]| && xs[1..][i] == x && xs[1..][j] == y;
    assert xs[i + 1] == x && xs[j + 1] == y;
  }

  lemma PrecedesHead<T(!new)>(xs: seq<T>, y: T)
    requires xs != [] && y in xs[1..]
    ensures Precedes(xs, xs[0], y)
  {
    var j :| 0 <= j < |xs[1..]| && xs[1..][j] == y;
    assert xs[j + 1] == y;
  }

  /** Where `InsertByCount` puts `x`: after every element that counts more. */
  lemma {:induction false} InsertSplit<T(!new)>(cnt: map<T, nat>, x: T, s: seq<T>) returns (p: nat)
    ensures p <= |s|
    ensures InsertByCount(cnt, x, s) == s[..p] + [x] + s[p..]
    ensures forall i :: 0 <= i < p ==> Get(cnt, s[i]) > Get(cnt, x)
  {
    if s == [] || Get(cnt, s[0]) <= Get(cnt, x) {
      p := 0;
    } else {
      var q := InsertSplit(cnt, x, s[1..]);
      p := q + 1;
      assert s[1..][..q] == s[1..p];
      assert s[1..][q..] == s[p..];
      assert s[..p] == [s[0]] + s[1..p];
      forall i | 0 <= i < p ensures Get(cnt, s[i]) > Get(cnt, x) {
        if i > 0 {
          assert s[i] == s[1..][i - 1];
        }
      }
    }
  }

  /** One pair of equal-count keys after `xs[0]` is inserted at `p` into a
      stable sort of `xs[1..]`. */
  lemma InsertedTie<T(!new)>(cnt: map<T, nat>, xs: seq<T>, rest: seq<T>, p: nat, r: seq<T>, i: nat, j: nat)
    requires xs != [] && p <= |rest| && r == rest[..p] + [xs[0]] + rest[p..]
    requires forall q :: 0 <= q < p ==> Get(cnt, rest[q]) > Get(cnt, xs[0])
    requires TiesKeepOrder(cnt, xs[1..], rest)
    requires forall y :: y in rest ==> y in xs[1..]
    requires i < j < |r| && Get(cnt, r[i]) == Get(cnt, r[j])
    ensures Precedes(xs, r[i], r[j])
  {
    var i' := if i < p then i else i - 1;
    var j' := if j < p then j else j - 1;
    if i == p {
      assert r[j] == rest[j'];
      PrecedesHead(xs, r[j]);
    } else if j == p {
      assert false;
    } else {
      assert r[i] == rest[i'] && r[j] == rest[j'];
      PrecedesTail(xs, r[i], r[j]);
    }
  }

  /** `sorted` is stable: keys of equal count stay in the order of `xs`. */
  lemma {:induction false} SortKeepsTies<T(!new)>(cnt: map<T, nat>, xs: seq<T>)
    ensures TiesKeepOrder(cnt, xs, SortByCount(cnt, xs))
  {
    if xs != [] {
      var rest := SortByCount(cnt, xs[1..]);
      SortKeepsTies(cnt, xs[1..]);
      var p := InsertSplit(cnt, xs[0], rest);
      var r := SortByCount(cnt, xs);
      forall i, j | 0 <= i < j < |r| && Get(cnt, r[i]) == Get(cnt, r[j])
        ensures Precedes(xs, r[i], r[j])
      {
        InsertedTie(cnt, xs, rest, p, r, i, j);
      }
    }
  }

  /** The ranked keys keep the counter's insertion order among equal counts. */
  lemma MostCommonKeepsTies<T(!new)>(c: Counter<T>, n: nat)
    ensures TiesKeepOrder(c.counts, c.order, MostCommon(c, n))
  {
    var sorted := SortByCount(c.counts, c.order);
    SortKeepsTies(c.counts, c.order);
    var r := MostCommon(c, n);
    assert forall i :: 0 <= i < |r| ==> r[i] == sorted[i];
  }

  /** `a & b` lists its keys in the order they have in `keys`. */
  lemma {:induction false} IntersectOverKeepsOrder<T(!new)>(keys: seq<T>, a: map<T, nat>, b: map<T, nat>, x: T, y: T)
    requires Precedes(IntersectOver(keys, a, b).order, x, y)
    ensures Precedes(keys, x, y)
  {
    var front := keys[..|keys| - 1];
    var k := keys[|keys| - 1];
    var r := IntersectOver(front, a, b);
    var o := IntersectOver(keys, a, b).order;
    var i, j :| 0 <= i < j < |o| && o[i] == x && o[j] == y;
    if j < |r.order| {
      assert r.order[i] == x && r.order[j] == y;
      IntersectOverKeepsOrder(front, a, b, x, y);
      var i', j' :| 0 <= i' < j' < |front| && front[i'] == x && front[j'] == y;
      assert keys[i'] == x && keys[j'] == y;
    } else {
      assert y == k && x == r.order[i];
      assert x in r.counts;
      var i' :| 0 <= i' < |front| && front[i'] == x;
      assert keys[i'] == x;
    }
  }

  /** Among shared keys of equal count, `(a & b).most_common(n)` keeps the
      order the keys have in `a`. */
  /** Keys of equal count at the cut of `most_common(n)`: a key left out
      comes after every listed key of the same count in insertion order. */
  lemma MostCommonCutTies<T(!new)>(c: Counter<T>, n: nat)
    requires Valid(c)
    ensures var r := MostCommon(c, n);
      forall k, j :: k in c.counts && k !in r && 0 <= j < |r| && Get(c.counts, k) == Get(c.counts, r[j]) ==>
        Precedes(c.order, r[j], k)
  {
    var sorted := SortByCount(c.counts, c.order);
    SortKeepsTies(c.counts, c.order);
    var r := MostCommon(c, n);
    forall k, j | k in c.counts && k !in r && 0 <= j < |r| && Get(c.counts, k) == Get(c.counts, r[j])
      ensures Precedes(c.order, r[j], k)
    {
      assert k in c.order;
      var p :| 0 <= p < |sorted| && sorted[p] == k;
      assert p >= |r|;
      assert r[j] == sorted[j];
    }
  }

  lemma MostCommonSharedTies<T(!new)>(a: Counter<T>, b: Counter<T>, n: nat)
    requires Valid(a) && Valid(b)
    ensures TiesKeepOrder(Intersect(a, b).counts, a.order, MostCommon(Intersect(a, b), n))
  {
    var c := Intersect(a, b);
    var r := MostCommon(c, n);
    MostCommonKeepsTies(c, n);
    forall i, j | 0 <= i < j < |r| && Get(c.counts, r[i]) == Get(c.counts, r[j])
      ensures Precedes(a.order, r[i], r[j])
    {
      IntersectOverKeepsOrder(a.order, a.counts, b.counts, r[i], r[j]);
    }
  }

  /** Shared keys of equal count at the cut of `(a & b).most_common(n)`: a key
      left out comes after every listed key of the same count in `a`'s order. */
  lemma MostCommonSharedCutTies<T(!new)>(a: Counter<T>, b: Counter<T>, n: nat)
    requires Valid(a) && Valid(b)
    ensures var c := Intersect(a, b);
      var r := MostCommon(c, n);
      forall k, j :: k in c.counts && k !in r && 0 <= j < |r| && Get(c.counts, k) == Get(c.counts, r[j]) ==>
        Precedes(a.order, r[j], k)
  {
    var c := Intersect(a, b);
    var r := MostCommon(c, n);
    MostCommonCutTies(c, n);
    forall k, j | k in c.counts && k !in r && 0 <= j < |r| && Get(c.counts, k) == Get(c.counts, r[j])
      ensures Precedes(a.order, r[j], k)
    {
      IntersectOverKeepsOrder(a.order, a.counts, b.counts, r[j], k);
    }
  }

  /** `x` occurs in `xs` before the first occurrence of `y`. */
  ghost predicate SeenFirst<T(!new)>(xs: seq<T>, x: T, y: T) {
    exists p :: 0 <= p < |xs| && xs[p] == x && y !in xs[..p + 1]
  }

  /** A key a prefix already saw first is still seen first in the whole list. */
  lemma SeenFirstExtends<T(!new)>(xs: seq<T>, m: nat, x: T, y: T)
    requires m <= |xs| && SeenFirst(xs[..m], x, y)
    ensures SeenFirst(xs, x, y)
  {
    var p :| 0 <= p < m && xs[..m][p] == x && y !in xs[..m][..p + 1];
    assert xs[..m][..p + 1] == xs[..p + 1];
  }

  /** Appending `x` to the list keeps the first-seen order of `o`, and of
      `o + [x]` when `x` is new. */
  lemma SeenFirstStep<T(!new)>(front: seq<T>, x: T, o: seq<T>, o': seq<T>)
    requires forall i, j :: 0 <= i < j < |o| ==> SeenFirst(front, o[i], o[j])
    requires forall k :: k in o ==> k in front
    requires o' == o || (o' == o + [x] && x !in front)
    ensures forall i, j :: 0 <= i < j < |o'| ==> SeenFirst(front + [x], o'[i], o'[j])
  {
    var xs := front + [x];
    assert xs[..|front|] == front;
    forall i, j | 0 <= i < j < |o'| ensures SeenFirst(xs, o'[i], o'[j]) {
      if j < |o| {
        assert o'[i] == o[i] && o'[j] == o[j];
        SeenFirstExtends(xs, |front|, o[i], o[j]);
      } else {
        assert o'[i] == o[i] && o'[j] == x && o[i] in front;
        var p :| 0 <= p < |front| && front[p] == o[i];
        assert xs[..p + 1] == front[..p + 1];
        assert xs[p] == o[i];
      }
    }
  }

  /** `Counter(xs)` lists its keys in the order of their first occurrence in `xs`. */
  lemma {:induction false} TallyFirstSeen<T(!new)>(xs: seq<T>)
    ensures forall i, j :: 0 <= i < j < |Tally(xs).order| ==>
      SeenFirst(xs, Tally(xs).order[i], Tally(xs).order[j])
  {
    if xs != [] {
      var front, x := xs[..|xs| - 1], xs[|xs| - 1];
      TallyFirstSeen(front);
      assert xs == front + [x];
      var c := Tally(front);
      assert Tally(xs) == Assign(c, x, Get(c.counts, x) + 1);
      assert forall k :: k in c.order ==> k in front;
      if x in c.counts {
        assert Tally(xs).order == c.order;
      } else {
        assert Tally(xs).order == c.order + [x];
      }
      SeenFirstStep(front, x, c.order, Tally(xs).order);
    }
  }

  /** When `o` lists keys in first-seen order of `xs`, a key before another in
      `o` is seen first in `xs`. */
  lemma PrecedesSeenFirst<T(!new)>(xs: seq<T>, o: seq<T>, x: T, y: T)
    requires forall i, j :: 0 <= i < j < |o| ==> SeenFirst(xs, o[i], o[j])
    requires Precedes(o, x, y)
    ensures SeenFirst(xs, x, y)
  {
    var i, j :| 0 <= i < j < |o| && o[i] == x && o[j] == y;
  }
}

=== FILE: host.dfy ===
/**
 * The facilities the scoring engine borrows from its host runtime and that
 * this model does not implement: Unicode normalisation and character classes,
 * and floating-point log2 and sqrt. Each is a parameter of the model, together
 * with the laws the proofs rely on.
 */
module Host {

  /** Unicode services: NFKC normalisation of a whole string, the whitespace
      class (`str.isspace`, which is also what `\s` matches in `re`), the word
      class (`\w` in `re`) and per-character lowercasing. */
  datatype Unicode = Unicode(
    nfkc: string -> string,
    isSpace: char -> bool,
    isWord: char -> bool,
    lower: char -> char)

  /** Lowercasing never turns whitespace into non-whitespace or back. */
  ghost predicate LowerKeepsSpace(u: Unicode) {
    forall c: char :: u.isSpace(u.lower(c)) == u.isSpace(c)
  }

  /** Floating-point functions, taken as exact real functions. */
  datatype Numerics = Numerics(log2: real -> real, sqrt: real -> real)

  /** The one fact about log2 that Shannon entropy needs: it is never
      positive on a probability. */
  ghost predicate Log2OfProbability(n: Numerics) {
    forall p: real :: 0.0 < p <= 1.0 ==> n.log2(p) <= 0.0
  }

  /** `math.sqrt(x)`. */
  function Sqrt(n: Numerics, x: real): real {
    n.sqrt(x)
  }

  /** sqrt gives the non-negative square root of a non-negative number. */
  ghost predicate SqrtIsRoot(n: Numerics) {
    forall x: real :: 0.0 <= x ==> 0.0 <= Sqrt(n, x) && Sqrt(n, x) * Sqrt(n, x) == x
  }
}

=== FILE: profiler.dfy ===
/**
 * The text profiler (`analyze_text`): the normalised Shannon entropy of the
 * non-whitespace characters, the share of punctuation symbols among them, and
 * the table of lower-cased character trigrams.
 */
module Profiler {
  import opened Host
  import opened Counters

  /** Inputs are cut to this many characters after normalisation. */
  const MaxChars: nat := 50000

  datatype Profile = Profile(entropy: real, punctuation: real, trigrams: Counter<string>)

  /** What empty or blank text yields: `0, 0, Counter()`. */
  const Degenerate: Profile := Profile(0.0, 0.0, Counter(map[], []))

  /** `text[:MAX_CHARS]`. */
  function Truncate(s: string): (t: string)
    ensures |t| <= MaxChars
    ensures |s| <= MaxChars ==> t == s
    ensures |s| > MaxChars ==> |t| == MaxChars
    ensures t <= s
  {
    if |s| <= MaxChars then s else s[..MaxChars]
  }

  /** `text.lower()`, one character at a time. */
  function Lower(u: Unicode, s: string): (r: string)
    ensures |r| == |s|
    ensures forall i :: 0 <= i < |s| ==> r[i] == u.lower(s[i])
  {
    if s == [] then [] else [u.lower(s[0])] + Lower(u, s[1..])
  }

  /** `[c for c in s if not c.isspace()]`. */
  function NonSpace(u: Unicode, s: string): (r: seq<char>)
    ensures |r| <= |s|
    ensures forall c :: c in r <==> c in s && !u.isSpace(c)
    ensures forall c :: multiset(r)[c] == if u.isSpace(c) then 0 else multiset(s)[c]
  {
    if s == [] then []
    else
      assert s == [s[0]] + s[1..];
      (if u.isSpace(s[0]) then [] else [s[0]]) + NonSpace(u, s[1..])
  }

  /** Matches `[^\w\s]`. */
  predicate IsSymbol(u: Unicode, c: char) {
    !u.isWord(c) && !u.isSpace(c)
  }

  /** `re.findall(r'[^\w\s]', s)`. */
  function Symbols(u: Unicode, s: string): (r: seq<char>)
    ensures |r| <= |s|
    ensures forall c :: c in r <==> c in s && IsSymbol(u, c)
    ensures forall c :: multiset(r)[c] == if IsSymbol(u, c) then multiset(s)[c] else 0
  {
    if s == [] then []
    else
      assert s == [s[0]] + s[1..];
      (if IsSymbol(u, s[0]) then [s[0]] else []) + Symbols(u, s[1..])
  }

  /** `ord(c) < 128`. */
  predicate IsAscii(c: char) {
    (c as int) < 128
  }

  /** `any(ord(c) < 128 for c in cs)`. */
  function HasAscii(cs: seq<char>): (b: bool)
    ensures b <==> exists c :: c in cs && IsAscii(c)
  {
    if cs == [] then false
    else
      assert cs == [cs[0]] + cs[1..];
      IsAscii(cs[0]) || HasAscii(cs[1..])
  }

  /** The scaling factor: 8 for text with an ASCII character, 12 otherwise. */
  function Divisor(cs: seq<char>): real {
    if HasAscii(cs) then 8.0 else 12.0
  }

  /** `min(h / d, 1.0)`. */
  function Normalize(h: real, d: real): (e: real)
    requires d > 0.0
    ensures e <= 1.0
    ensures h >= 0.0 ==> e >= 0.0
    ensures h / d <= 1.0 ==> e == h / d
    ensures h / d >= 1.0 ==> e == 1.0
  {
    if h / d < 1.0 then h / d else 1.0
  }

  /** The entropy terms `-(p * log2(p))`, `p = counts[c] / total`, over the characters in `s`. */
  ghost function EntropyOver(n: Numerics, counts: map<char, nat>, total: nat, s: set<char>): real
    requires total > 0
    decreases s
  {
    if s == {} then 0.0
    else
      var c := Pick(s);
      var p := Get(counts, c) as real / total as real;
      -(p * n.log2(p)) + EntropyOver(n, counts, total, s - {c})
  }

  /** Shannon entropy (in bits) of the character distribution of `cs`. */
  ghost function RawEntropy(n: Numerics, cs: seq<char>): real
    requires cs != []
  {
    var counts := Tally(cs).counts;
    EntropyOver(n, counts, |cs|, counts.Keys)
  }

  /** Each term is the entropy contribution of a probability, so none is negative. */
  lemma {:induction false} EntropyOverNonNegative(n: Numerics, counts: map<char, nat>, total: nat, s: set<char>)
    requires total > 0 && Log2OfProbability(n)
    requires forall c :: c in s ==> 0 < Get(counts, c) <= total
    ensures EntropyOver(n, counts, total, s) >= 0.0
    decreases s
  {
    if s != {} {
      var c := Pick(s);
      var p := Get(counts, c) as real / total as real;
      Ratio(Get(counts, c), total);
      EntropyTerm(p, n.log2(p));
      EntropyOverNonNegative(n, counts, total, s - {c});
    }
  }

  lemma EntropyTerm(p: real, l: real)
    requires 0.0 < p && l <= 0.0
    ensures p * l <= 0.0
  {
  }

  lemma RawEntropyNonNegative(n: Numerics, cs: seq<char>)
    requires cs != [] && Log2OfProbability(n)
    ensures RawEntropy(n, cs) >= 0.0
  {
    var counts := Tally(cs).counts;
    EntropyOverNonNegative(n, counts, |cs|, counts.Keys);
  }

  /** Every contiguous three-character window of `s`, left to right. */
  function Windows(s: string): (w: seq<string>)
    ensures |w| == if |s| < 3 then 0 else |s| - 2
    ensures forall i :: 0 <= i < |w| ==> w[i] == s[i..i + 3]
  {
    if |s| < 3 then [] else seq(|s| - 2, i requires 0 <= i < |s| - 2 => s[i..i + 3])
  }

  /** The text the profile is built from: normalised, then cut to `MaxChars`. */
  function Prepared(u: Unicode, text: string): (t: string)
    ensures t <= u.nfkc(text) && |t| <= MaxChars
    ensures |u.nfkc(text)| <= MaxChars ==> t == u.nfkc(text)
    ensures |u.nfkc(text)| > MaxChars ==> t == u.nfkc(text)[..MaxChars]
  {
    Truncate(u.nfkc(text))
  }

  /** The profile of a prepared, non-empty text. */
  ghost function ProfileOf(u: Unicode, n: Numerics, t: string): (p: Profile)
    ensures p.entropy <= 1.0
    ensures Valid(p.trigrams)
  {
    var lt := Lower(u, t);
    var chars := NonSpace(u, lt);
    var symbols := Symbols(u, t);
    if chars == [] then Degenerate
    else
      var total := |chars|;
      var entropy := Normalize(RawEntropy(n, chars), Divisor(chars));
      var ratio := if total > 0 then |symbols| as real / total as real else 0.0;
      Profile(entropy, ratio, Tally(Windows(lt)))
  }

  /** `analyze_text(text)`. */
  ghost function Analyze(u: Unicode, n: Numerics, text: string): (p: Profile)
    ensures p.entropy <= 1.0
    ensures Valid(p.trigrams)
  {
    if text == [] then Degenerate else ProfileOf(u, n, Prepared(u, text))
  }

  /** `k` starts at position `i` of `s`. */
  ghost predicate OccursAt(s: string, k: string, i: int) {
    0 <= i && i + 3 <= |s| && s[i..i + 3] == k
  }

  /** A symbol is never whitespace and lowercasing keeps it non-whitespace, so
      there are no more symbols than non-whitespace characters. */
  lemma {:induction false} SymbolsAtMostNonSpace(u: Unicode, t: string)
    requires LowerKeepsSpace(u)
    ensures |Symbols(u, t)| <= |NonSpace(u, Lower(u, t))|
  {
    if t != [] {
      SymbolsAtMostNonSpace(u, t[1..]);
      assert Lower(u, t) == [u.lower(t[0])] + Lower(u, t[1..]);
      assert IsSymbol(u, t[0]) ==> !u.isSpace(u.lower(t[0]));
    }
  }

  /** The lower-cased text has no non-whitespace character exactly when the
      text itself has none. */
  lemma BlankIff(u: Unicode, t: string)
    requires LowerKeepsSpace(u)
    ensures NonSpace(u, Lower(u, t)) == [] <==> forall i :: 0 <= i < |t| ==> u.isSpace(t[i])
  {
    var lt := Lower(u, t);
    if i :| 0 <= i < |t| && !u.isSpace(t[i]) {
      assert lt[i] in lt && !u.isSpace(lt[i]);
      assert lt[i] in NonSpace(u, lt);
    }
  }

  /** Empty input, and input whose prepared text is all whitespace, give the
      degenerate profile; any other input gives the trigram table of the
      lower-cased prepared text. */
  lemma DegenerateExactly(u: Unicode, n: Numerics, text: string)
    requires LowerKeepsSpace(u)
    ensures text == [] ==> Analyze(u, n, text) == Degenerate
    ensures (forall i :: 0 <= i < |Prepared(u, text)| ==> u.isSpace(Prepared(u, text)[i]))
      ==> Analyze(u, n, text) == Degenerate
    ensures text != [] && (exists i :: 0 <= i < |Prepared(u, text)| && !u.isSpace(Prepared(u, text)[i]))
      ==> Analyze(u, n, text).trigrams == Tally(Windows(Lower(u, Prepared(u, text))))
  {
    BlankIff(u, Prepared(u, text));
  }

  lemma Ratio(a: nat, b: nat)
    requires a <= b && b > 0
    ensures 0.0 <= a as real / b as real <= 1.0
    ensures a > 0 ==> 0.0 < a as real / b as real
  {
    assert a as real <= b as real;
  }

  lemma ProfileOfBounds(u: Unicode, n: Numerics, t: string)
    requires LowerKeepsSpace(u) && Log2OfProbability(n)
    ensures 0.0 <= ProfileOf(u, n, t).entropy <= 1.0
    ensures 0.0 <= ProfileOf(u, n, t).punctuation <= 1.0
  {
    var chars := NonSpace(u, Lower(u, t));
    if chars != [] {
      RawEntropyNonNegative(n, chars);
      SymbolsAtMostNonSpace(u, t);
      Ratio(|Symbols(u, t)|, |chars|);
    }
  }

  /** Both ratios of the profile lie in [0, 1]. */
  lemma ProfileBounds(u: Unicode, n: Numerics, text: string)
    requires LowerKeepsSpace(u) && Log2OfProbability(n)
    ensures 0.0 <= Analyze(u, n, text).entropy <= 1.0
    ensures 0.0 <= Analyze(u, n, text).punctuation <= 1.0
  {
    if text != [] {
      ProfileOfBounds(u, n, Prepared(u, text));
    }
  }

  /** The entropy divisor is 8 exactly when some non-whitespace character is
      ASCII, and 12 otherwise. */
  lemma DivisorChoice(cs: seq<char>)
    ensures Divisor(cs) == 8.0 <==> exists c :: c in cs && IsAscii(c)
    ensures Divisor(cs) == 12.0 <==> forall c :: c in cs ==> !IsAscii(c)
  {
  }

  /** For the same raw entropy below 12 bits, text with an ASCII character
      scores strictly higher than text without one. */
  lemma AsciiScalesHigher(h: real)
    requires 0.0 < h < 12.0
    ensures Normalize(h, 8.0) > Normalize(h, 12.0)
  {
  }

  lemma LowerPrefix(u: Unicode, s: string, t: string)
    requires t <= s
    ensures Lower(u, t) <= Lower(u, s)
  {
  }

  /** The windows of a prefix `t` of `s` are counted `len(t) - 2` times in
      all, and each is a three-character piece of `s` lying within `t`. */
  lemma WindowTable(t: string, s: string)
    requires t <= s
    ensures Total(Tally(Windows(t)).counts) == if |t| < 3 then 0 else |t| - 2
    ensures forall k :: k in Tally(Windows(t)).counts ==>
      |k| == 3 && exists i :: i + 3 <= |t| && OccursAt(s, k, i)
  {
    TallyTotal(Windows(t));
    WindowKeys(t, s);
  }

  lemma WindowKeys(t: string, s: string)
    requires t <= s
    ensures forall k :: k in Windows(t) ==>
      |k| == 3 && exists i :: i + 3 <= |t| && OccursAt(s, k, i)
  {
    var ws := Windows(t);
    forall k | k in ws
      ensures |k| == 3 && exists i :: i + 3 <= |t| && OccursAt(s, k, i)
    {
      var i :| 0 <= i < |ws| && ws[i] == k;
      assert t[i..i + 3] == s[i..i + 3];
      assert OccursAt(s, k, i);
    }
  }

  /** For text with a non-whitespace character, the trigram counts add up to
      `max(len(t) - 2, 0)` for the prepared text `t`; every key has length 3,
      is counted once per position where it starts in the lower-cased text,
      and lies within the first `MaxChars` characters of the normalised text. */
  lemma TrigramTable(u: Unicode, n: Numerics, text: string)
    requires LowerKeepsSpace(u)
    requires text != []
    requires exists i :: 0 <= i < |Prepared(u, text)| && !u.isSpace(Prepared(u, text)[i])
    ensures var t := Prepared(u, text);
      Total(Analyze(u, n, text).trigrams.counts) == if |t| < 3 then 0 else |t| - 2
    ensures var table := Analyze(u, n, text).trigrams.counts;
      forall k :: k in table ==>
        && |k| == 3
        && table[k] == Count(Windows(Lower(u, Prepared(u, text))), k)
        && exists i :: i + 3 <= MaxChars && OccursAt(Lower(u, u.nfkc(text)), k, i)
  {
    var t := Prepared(u, text);
    DegenerateExactly(u, n, text);
    LowerPrefix(u, u.nfkc(text), t);
    WindowTable(Lower(u, t), Lower(u, u.nfkc(text)));
  }
}
